=== FILE: README.md ===
# Build-AI file-tree projector in Dafny

A model of the two pure cores in `frontend/src/pages/Builder.tsx`. The page turns a
stream of generated build steps into a live WebContainer preview through these two cores.

1. **The pending-step fold** (first effect, lines 47-109). Every step whose status is
   `"pending"` is visited in list order. A `CreateFile` step cuts its `path` with
   `split("/")` and walks the `FileItem` tree one segment at a time. It builds the
   accumulated path `currentFolder + "/" + segment` from `""`, and at each level it
   looks that path up with `find`. A missing non-final segment becomes a new folder,
   appended to the level. A missing final segment becomes a new file, appended too. A
   found final segment gets its `content` overwritten with the step's `code`. When at
   least one step was pending, the new tree replaces the old one and every step in the
   list is marked `"completed"`.
2. **The mount projection** (second effect, lines 112-149). `createMountStructure` turns
   the tree into the nested `{file: {contents}}` / `{directory: {...}}` descriptor given
   to `webcontainer.mount`. Its helper `processFile` writes into the top-level result
   object for every folder at any depth and for every top-level file. It returns each
   node's own entry to its parent.

The TypeScript mutates arrays shared with the previous state. Here both cores are pure
functions over immutable values:

- `wrappers.dfy`: `Option` (a TypeScript optional field) and `Result` (a computation
  that may throw).
- `paths.dfy` (`Paths`): JavaScript `split("/")`, its inverse `Join`, and the path a
  walk accumulates.
- `file_tree.dfy` (`FileTree`): `Node` (a `FileItem`), `FindIndex` (`Array.find`),
  `Insert` (the walk of one `CreateFile` step), the reader `Lookup`, the invariant
  `WellFormed` and the set of stored paths `AllPaths`.
- `steps.dfy` (`Steps`): `Step`, `ApplyStep`, the left fold `FoldPending` and the whole
  effect `Pass`, batch completion included.
- `mount.dfy` (`Mount`): `MEntry` (a descriptor entry) and `ProcessNode` /
  `ProcessChildren` / `Project`, which reproduce `processFile` with the shared root
  threaded through explicitly. It also has a reference projection `Entry` without the
  root writes, to compare against.
- `scenarios.dfy` (`Scenarios`): concrete runs that exhibit the quirks.

## Quirks kept from the code

Builder.tsx behaves in four ways that a reader might not expect. The model keeps each
of them.

- A step path with a leading slash is not normalised. `"/index.html"` splits into
  `["", "index.html"]`. The code therefore creates a folder named `""` stored at `"/"`,
  holding the file `"//index.html"`. It does not create a root file `"/index.html"`
  (`Scenarios.LeadingSlashMakesEmptyFolder`, `Scenarios.LeadingSlashMount`).
- A folder can hold `content`. A `CreateFile` whose path names an existing folder
  writes the code onto that folder (`Scenarios.FolderReceivesContent`).
- The mount descriptor is not a clean recursive image of the tree. Every nested folder
  also becomes a key of the top-level descriptor, and it can overwrite a top-level
  entry of the same name (`Mount.Project`, `Mount.ProjectLastWriter`, `Scenarios.NestedFolderMountedAtRoot`,
  `Scenarios.NestedFolderOverwritesRootFile`).
- A walk does not step over a file in the middle of a path. When a non-final segment
  finds a file, the next `find` runs on `undefined` and throws. This is modelled as `Failure(NotADirectory(path))`, with
  nothing changed (`FileTree.InsertFailsIff`, `Scenarios.FileInTheWay`).

## Model

| member | source | states |
|---|---|---|
| Paths.Split | frontend/src/pages/Builder.tsx:53 | `split("/")` never yields an empty list and no segment contains a slash |
| Paths.JoinSplit | frontend/src/pages/Builder.tsx:53 | joining the segments with "/" gives the step path back: the split loses nothing, empty segments included |
| Paths.SplitJoin | frontend/src/pages/Builder.tsx:53 | splitting a join of slash-free segments gives the same segments back |
| Paths.StoredPath | frontend/src/pages/Builder.tsx:57-59 | the node a step path `p` reaches is stored under `"/" + p`, so every stored path starts with "/" |
| FileTree.FindIndex | frontend/src/pages/Builder.tsx:65 | `find` by path: the first node stored under the path, and none exactly when no node has it |
| FileTree.Insert | frontend/src/pages/Builder.tsx:58-91 | at the top level, one walk keeps every existing node in its slot with its name, kind and path. It changes only the first node under the looked-up path. It appends at most one node, at the end, and only when the path was missing |
| FileTree.InsertShapeAtEveryDepth | frontend/src/pages/Builder.tsx:63-90 | at every level the walk passes through, the nodes keep their slots and order, the siblings are untouched, and a missing node is appended at the end. A found ancestor folder changes only in its children. A new folder is empty apart from the rest of the walk. The final node changes only in `content`, or is a new file holding the code |
| FileTree.InsertThenLookup | frontend/src/pages/Builder.tsx:63-75 | upsert: afterwards the step path looks up to a node stored there with the step's code. That node is the old one with only `content` replaced, or a new file when there was none |
| FileTree.LookupAfterInsert | frontend/src/pages/Builder.tsx:63-75 | after a successful walk the step path always looks up to a node stored under the walked path that holds the step's code |
| FileTree.InsertFrame | frontend/src/pages/Builder.tsx:58-91 | every path that is neither the step path nor one of its ancestors looks up exactly as before |
| FileTree.InsertIntoEmpty | frontend/src/pages/Builder.tsx:58-91 | from an empty level the walk builds one new folder per non-final segment, each holding only the next, ending in the file |
| FileTree.InsertFailsIff | frontend/src/pages/Builder.tsx:78-89 | the walk fails exactly when a proper ancestor of the step path looks up to a node without `children` |
| FileTree.InsertKeepsWellFormed | frontend/src/pages/Builder.tsx:65-89 | the walk of a split path keeps four invariants: names without '/', paths built from the parent path and the name, distinct sibling paths, and children exactly on folders |
| FileTree.PathsUnique | frontend/src/pages/Builder.tsx:65-89 | in a well-formed tree no two nodes at any depth share a path: the tree stores exactly one distinct path per node |
| FileTree.InsertAddsWalkPaths | frontend/src/pages/Builder.tsx:63-90 | a walk adds exactly the paths it passes through (the ancestor folders and the final node) to the tree's paths and removes none |
| FileTree.UpsertAddsNoPath | frontend/src/pages/Builder.tsx:65-75 | a step path that already exists is walked without failing, and the walk stores no new path anywhere |
| FileTree.FileAppendedToExistingFolder | frontend/src/pages/Builder.tsx:78-89 | the two-segment instance, computed exactly: an existing top-level folder is reused, and a new file under it is appended to the end of that folder's children |
| Steps.ApplyStep | frontend/src/pages/Builder.tsx:52-93 | a step that is not a `CreateFile` with a path leaves the tree unchanged. A successful `CreateFile` leaves its path stored as `"/" + path` with the step's code |
| Steps.Pass | frontend/src/pages/Builder.tsx:47-107 | with nothing pending neither files nor steps change. Otherwise it succeeds exactly when the fold does, the tree becomes the folded one, and every step becomes that step with status completed |
| Steps.FoldPending | frontend/src/pages/Builder.tsx:50-95 | the pending steps fold left to right, and a failed fold always contains a pending `CreateFile` step with a path: no other step can throw |
| Steps.FoldNothingPending | frontend/src/pages/Builder.tsx:49-51 | a step list with no pending step folds to the unchanged tree |
| Steps.FoldPendingAppend | frontend/src/pages/Builder.tsx:50-95 | steps fold left to right: folding `a + b` folds `b` into the tree folding `a` produced, and a failure in `a` is the result |
| Steps.FoldIgnoresInertSteps | frontend/src/pages/Builder.tsx:50-54 | pending steps that are not path-carrying `CreateFile`s leave the tree unchanged |
| Steps.CreateFileFrame | frontend/src/pages/Builder.tsx:52-92 | a `CreateFile` step changes the lookup of no path other than its own and its ancestors' |
| Steps.UpsertTwice | frontend/src/pages/Builder.tsx:65-75 | after two pending `CreateFile`s for one path, the path looks up to a node with the later code, and the second step adds no path |
| Steps.PassIdempotent | frontend/src/pages/Builder.tsx:97-107 | a second pass over a successful pass's result changes nothing |
| Steps.FoldKeepsWellFormed | frontend/src/pages/Builder.tsx:50-93 | the whole fold keeps the tree well formed, so at most one node anywhere in the tree has a given path |
| Mount.ProcessNode | frontend/src/pages/Builder.tsx:115-143 | what `processFile` returns for a node does not depend on the shared root: it is the node's own entry, `{file: content or ""}` or a directory of its children |
| Mount.ProcessChildren | frontend/src/pages/Builder.tsx:119-123 | a folder's directory is the `fromEntries` of its children's own entries, a later sibling winning a shared name |
| Mount.EntriesKeys | frontend/src/pages/Builder.tsx:120-122 | a directory's keys are exactly its children's names |
| Mount.EntriesValues | frontend/src/pages/Builder.tsx:120-122 | a child whose name no later sibling reuses is listed with its own entry |
| Mount.FolderProjection | frontend/src/pages/Builder.tsx:116-124 | in a well-formed tree a folder's directory maps every child's name to that child's entry, with no omissions or additions |
| Mount.ProcessNodeWrites | frontend/src/pages/Builder.tsx:116-131 | processing a node adds exactly its folder names at every depth, plus its own name when top-level, to the root, and keeps every other root key's value |
| Mount.ProcessChildrenWrites | frontend/src/pages/Builder.tsx:118-121 | processing a folder's children adds exactly the names of the folders below them to the root and keeps every other key |
| Mount.RootHoldsOwnEntry | frontend/src/pages/Builder.tsx:115-142 | right after a folder at any depth, or a top-level file, is processed, the root holds its own entry under its name. A nested file leaves the root unchanged |
| Mount.ProcessNodeReplays | frontend/src/pages/Builder.tsx:115-143 | value by value, processing a node stores, in post-order, each writing node's own entry under its name: its descendant folders, then itself. A file writes only when it is top-level |
| Mount.ProcessRootsReplays | frontend/src/pages/Builder.tsx:146 | the top-level loop replays the writers of each top-level node in turn |
| Mount.ProjectLastWriter | frontend/src/pages/Builder.tsx:112-148 | every value of the descriptor: under a name, the entry of the last node, in write order, that writes that name |
| Mount.ProcessRoots | frontend/src/pages/Builder.tsx:146 | the top-level loop adds exactly the top-level names and every folder name at any depth |
| Mount.Project | frontend/src/pages/Builder.tsx:112-148 | the descriptor's keys are exactly the top-level names plus the names of all folders at any depth |
| Mount.ProcessRootsTopLevel | frontend/src/pages/Builder.tsx:146 | the top-level loop leaves a node's own entry under its name unless a later top-level node writes that name |
| Mount.ProjectTopLevel | frontend/src/pages/Builder.tsx:112-148 | a top-level node whose name no later top-level node writes is mounted under its name with its own entry |
| Scenarios.NestedFileIntoEmptyTree | frontend/src/pages/Builder.tsx:57-86 | `a/b/c` into the empty tree gives exactly folder `/a`, holding folder `/a/b`, holding file `/a/b/c` with the code |
| Scenarios.LeadingSlashMakesEmptyFolder | frontend/src/pages/Builder.tsx:53-107 | `/index.html` gives a folder named "" at "/" holding `//index.html`, and the step becomes completed |
| Scenarios.LeadingSlashMount | frontend/src/pages/Builder.tsx:112-148 | that tree mounts as a directory named "" holding `index.html` |
| Scenarios.FolderReceivesContent | frontend/src/pages/Builder.tsx:65-75 | a step whose path names a folder writes its code onto the folder and keeps the children |
| Scenarios.FileInTheWay | frontend/src/pages/Builder.tsx:78-89 | `a/b` over a file `/a` fails with `NotADirectory("/a")` |
| Scenarios.NestedFolderMountedAtRoot | frontend/src/pages/Builder.tsx:116-124 | `src/components/Button.tsx` mounts `src` and, a second time, `components` at the root |
| Scenarios.NestedFolderOverwritesRootFile | frontend/src/pages/Builder.tsx:118-146 | a nested folder `lib` processed later replaces the top-level file `lib` in the descriptor |

## Left out

- Instruction parsing (`parseXml`) is not part of this model. The parsed step list is an input to the fold.
- `init` and the send handler (Builder.tsx:158-192, 249-271) are left out. They are network calls to the generation backend and React state setters.
- The `webcontainer?.mount` call and its null check are left out. The model stops at the descriptor handed to it.
- React effect scheduling and re-runs are left out. They decide when a pass runs, which is outside the pass itself. The model takes one snapshot of files and steps and computes the pass over it.
- Steps.Pass: "every step becomes completed" assumes the step list is unchanged between the pass reading it and React applying the update. The source marks steps through an updater function (Builder.tsx:100), which runs on the list React holds when it applies the update. If steps are appended in between, as the send handler's append at Builder.tsx:181 can do, those steps are marked completed without ever being folded. This interleaving is not modelled.
- `console.log`, opening the preview in a new tab, all JSX and layout state, `MOCK_FILE_CONTENT` and `Home.tsx` are left out. They are presentation only.
- In-place mutation and aliasing are not modelled. The TypeScript copies only the top-level array. It pushes into nested `children` arrays (Builder.tsx:67, 81) and writes `content` onto nodes (Builder.tsx:74) that the previous state shares. A walk that throws has changed nothing itself: it needs every earlier segment to be found with `children`, so it neither pushes nor writes. But the earlier pending steps of the same pass have already mutated those shared arrays and nodes, so a pass that throws leaves their changes in the old tree object. The model returns `Failure` and changes nothing.
- The steps' `id`, `title` and `description` fields are left out. They do not affect either core. Every status other than `"pending"` is modelled as `Completed`, because the code compares only against `"pending"`.
- Descriptor keys are plain strings. JavaScript's special handling of an assignment to a key such as `"__proto__"` is not modelled.
- FileTree.InsertKeepsWellFormed: assumes the segments hold no '/', which is what splitting a step path guarantees. It is not stated for arbitrary segment lists.
- Descriptor key order is not modelled. A descriptor is a Dafny `map`, which has no order, while a JavaScript object lists integer-like keys first and then the others in insertion order. The order of the entries handed to `mount` is therefore not stated.

=== FILE: file_tree.dfy ===
/**
 * The in-memory file tree of Builder.tsx (`FileItem[]`) and the walk one
 * `CreateFile` step performs over it (Builder.tsx:53-91): per path segment, look the
 * accumulated path up at the current level with `find`, create a folder or a file
 * when it is missing, overwrite `content` when the final segment is found, and
 * descend into `children` otherwise.
 */
module FileTree {
  import opened Wrappers
  import opened Paths

  datatype Kind = File | Folder

  /**
   * One `FileItem`. Both optional fields exist on every kind, as in the source's
   * record: the walk can write `content` onto a folder (Builder.tsx:74).
   */
  datatype Node = Node(name: string, kind: Kind, path: string, content: Option<string>, children: Children)

  /** The optional `children` array of a `FileItem`. */
  datatype Children = NoChildren | ChildList(nodes: seq<Node>)

  /** What makes the walk throw: a non-final segment found a node without `children`. */
  datatype FoldError = NotADirectory(path: string)

  function FileNode(name: string, path: string, code: Option<string>): Node {
    Node(name, File, path, code, NoChildren)
  }

  function FolderNode(name: string, path: string): Node {
    Node(name, Folder, path, None, ChildList([]))
  }

  /** The level's search by path, as an index: the first node stored under `p`, if any. */
  function FindIndex(level: seq<Node>, p: string): (r: Option<nat>)
    ensures r.Some? ==> r.value < |level| && level[r.value].path == p
    ensures r.Some? ==> forall j :: 0 <= j < r.value ==> level[j].path != p
    ensures r.None? <==> forall j :: 0 <= j < |level| ==> level[j].path != p
  {
    if |level| == 0 then None
    else if level[0].path == p then Some(0)
    else
      match FindIndex(level[1..], p)
      case None => None
      case Some(i) => Some(i + 1)
  }

  /**
   * How one walk changes a level whose looked-up path is `p`: every existing node keeps
   * its slot, name, kind and path; only the first node under `p` may change; at most one
   * node is added, at the end, and only when nothing was stored under `p`.
   */
  predicate LevelShape(before: seq<Node>, after: seq<Node>, p: string) {
    && |before| <= |after| <= |before| + 1
    && (forall i :: 0 <= i < |before| ==>
          after[i].name == before[i].name && after[i].kind == before[i].kind && after[i].path == before[i].path)
    && (forall i :: 0 <= i < |before| && FindIndex(before, p) != Some(i) ==> after[i] == before[i])
    && (|after| == |before| + 1 <==> FindIndex(before, p).None?)
    && (|after| == |before| + 1 ==> after[|before|].path == p)
  }

  /**
   * The walk of one `CreateFile` step whose remaining segments are `segs`, at a level
   * whose folder path is `prefix` (Builder.tsx:58-91).
   */
  function Insert(level: seq<Node>, prefix: string, segs: seq<string>, code: Option<string>): (r: Result<seq<Node>, FoldError>)
    requires |segs| >= 1
    ensures r.Success? ==> LevelShape(level, r.value, prefix + "/" + segs[0])
    ensures r.Success? && |r.value| == |level| + 1 ==> r.value[|level|].name == segs[0]
    decreases |segs|
  {
    var p := prefix + "/" + segs[0];
    var found := FindIndex(level, p);
    if |segs| == 1 then
      if found.None? then Success(level + [FileNode(segs[0], p, code)])
      else Success(level[found.value := level[found.value].(content := code)])
    else if found.None? then
      // a new folder is pushed and the rest of the walk fills its empty children
      match Insert([], p, segs[1..], code)
      case Failure(e) => Failure(e)
      case Success(cs') => Success(level + [FolderNode(segs[0], p).(children := ChildList(cs'))])
    else
      match level[found.value].children
      case NoChildren => Failure(NotADirectory(p))
      case ChildList(cs) =>
        match Insert(cs, p, segs[1..], code)
        case Failure(e) => Failure(e)
        case Success(cs') => Success(level[found.value := level[found.value].(children := ChildList(cs'))])
  }

  /**
   * Reading the tree the way the walk searches it: per segment, the first node whose
   * path is the accumulated path, descending through `children`.
   */
  function Lookup(level: seq<Node>, prefix: string, segs: seq<string>): Option<Node>
    requires |segs| >= 1
    decreases |segs|
  {
    var p := prefix + "/" + segs[0];
    match FindIndex(level, p)
    case None => None
    case Some(i) =>
      if |segs| == 1 then Some(level[i])
      else
        match level[i].children
        case NoChildren => None
        case ChildList(cs) => Lookup(cs, p, segs[1..])
  }

  /**
   * The tree the walk builds from an empty level: one new folder per non-final
   * segment, each holding only the next one, ending in the new file.
   */
  function Chain(prefix: string, segs: seq<string>, code: Option<string>): seq<Node>
    requires |segs| >= 1
    decreases |segs|
  {
    var p := prefix + "/" + segs[0];
    if |segs| == 1 then [FileNode(segs[0], p, code)]
    else [FolderNode(segs[0], p).(children := ChildList(Chain(p, segs[1..], code)))]
  }

  /**
   * The tree invariants the walk keeps: every node is stored under its parent's path
   * plus its own name, which holds no '/' (it is one piece of a split path), siblings
   * have pairwise different paths, and exactly the folders have children.
   */
  predicate WellFormed(level: seq<Node>, prefix: string)
    decreases level
  {
    && (forall i :: 0 <= i < |level| ==> level[i].path == prefix + "/" + level[i].name)
    && (forall i :: 0 <= i < |level| ==> NoSlash(level[i].name))
    && (forall i, j :: 0 <= i < j < |level| ==> level[i].path != level[j].path)
    && (forall i :: 0 <= i < |level| ==> (level[i].kind == Folder <==> level[i].children.ChildList?))
    && (forall i :: 0 <= i < |level| && level[i].children.ChildList? ==> WellFormed(level[i].children.nodes, level[i].path))
  }

  /** `find` only sees paths: two levels with the same paths up front find the same first index. */
  lemma {:induction false} FindIndexByPaths(before: seq<Node>, after: seq<Node>, q: string)
    requires |before| <= |after| <= |before| + 1
    requires forall j :: 0 <= j < |before| ==> after[j].path == before[j].path
    requires |after| == |before| + 1 ==> after[|before|].path != q
    ensures FindIndex(after, q) == FindIndex(before, q)
    decreases |before|
  {
    if |before| == 0 {
      if |after| == 1 {
        assert after[1..] == [];
      }
    } else if before[0].path != q {
      assert after[0].path == before[0].path;
      FindIndexByPaths(before[1..], after[1..], q);
    }
  }

  /** Looking up any other path gives the same index and node after a change of that shape. */
  lemma ShapeKeepsOtherPaths(before: seq<Node>, after: seq<Node>, p: string, q: string)
    requires LevelShape(before, after, p)
    requires q != p
    ensures FindIndex(after, q) == FindIndex(before, q)
    ensures FindIndex(before, q).Some? ==> after[FindIndex(before, q).value] == before[FindIndex(before, q).value]
  {
    FindIndexByPaths(before, after, q);
  }

  /** A node appended under a path nothing else has is what `find` returns for that path. */
  lemma {:induction false} FindIndexAppended(level: seq<Node>, x: Node)
    requires FindIndex(level, x.path).None?
    ensures FindIndex(level + [x], x.path) == Some(|level|)
    decreases |level|
  {
    if |level| == 0 {
      assert ([] + [x])[0] == x;
    } else {
      assert (level + [x])[1..] == level[1..] + [x];
      FindIndexAppended(level[1..], x);
    }
  }

  /** A path lookup that finds a node finds one stored under the walked path. */
  lemma {:induction false} LookupFindsPath(level: seq<Node>, prefix: string, segs: seq<string>)
    requires |segs| >= 1
    requires Lookup(level, prefix, segs).Some?
    ensures Lookup(level, prefix, segs).value.path == PathOf(prefix, segs)
    decreases |segs|
  {
    var p := prefix + "/" + segs[0];
    if |segs| > 1 {
      LookupFindsPath(level[FindIndex(level, p).value].children.nodes, p, segs[1..]);
    }
  }

  /** Below the first segment, a lookup continues in the children of the node found for it. */
  lemma LookupDescends(level: seq<Node>, prefix: string, segs: seq<string>, i: nat, cs: seq<Node>)
    requires |segs| > 1
    requires FindIndex(level, prefix + "/" + segs[0]) == Some(i)
    requires level[i].children == ChildList(cs)
    ensures Lookup(level, prefix, segs) == Lookup(cs, prefix + "/" + segs[0], segs[1..])
  {
  }

  /** The last segment of a walk: the file is updated in place or appended. */
  lemma UpsertHere(level: seq<Node>, prefix: string, name: string, code: Option<string>)
    ensures Insert(level, prefix, [name], code).Success?
    ensures Lookup(level, prefix, [name]).Some? ==>
              Lookup(Insert(level, prefix, [name], code).value, prefix, [name]) == Some(Lookup(level, prefix, [name]).value.(content := code))
    ensures Lookup(level, prefix, [name]).None? ==>
              Lookup(Insert(level, prefix, [name], code).value, prefix, [name]) == Some(FileNode(name, prefix + "/" + name, code))
  {
    var p := prefix + "/" + name;
    var r := Insert(level, prefix, [name], code).value;
    var found := FindIndex(level, p);
    if found.None? {
      var x := FileNode(name, p, code);
      assert r == level + [x];
      FindIndexAppended(level, x);
    } else {
      var i := found.value;
      assert r == level[i := level[i].(content := code)];
      FindIndexByPaths(level, r, p);
    }
  }

  /**
   * Upsert: after a successful walk, looking the step's path up finds the node that was
   * there with only `content` replaced by the step's code, or, when there was none, a
   * new file named by the last segment, stored under the walked path, holding the code.
   */
  lemma {:induction false} InsertThenLookup(level: seq<Node>, prefix: string, segs: seq<string>, code: Option<string>)
    requires |segs| >= 1
    requires Insert(level, prefix, segs, code).Success?
    ensures Lookup(level, prefix, segs).Some? ==>
              Lookup(Insert(level, prefix, segs, code).value, prefix, segs) == Some(Lookup(level, prefix, segs).value.(content := code))
    ensures Lookup(level, prefix, segs).None? ==>
              Lookup(Insert(level, prefix, segs, code).value, prefix, segs) == Some(FileNode(segs[|segs| - 1], PathOf(prefix, segs), code))
    decreases |segs|
  {
    var p := prefix + "/" + segs[0];
    if |segs| == 1 {
      assert segs == [segs[0]];
      assert PathOf(prefix, segs) == p;
      UpsertHere(level, prefix, segs[0], code);
    } else {
      var r := Insert(level, prefix, segs, code).value;
      var found := FindIndex(level, p);
      var rest := segs[1..];
      assert PathOf(prefix, segs) == PathOf(p, rest);
      assert segs[|segs| - 1] == rest[|rest| - 1];
      if found.None? {
        var cs' := Insert([], p, rest, code).value;
        var x := FolderNode(segs[0], p).(children := ChildList(cs'));
        assert r == level + [x];
        FindIndexAppended(level, x);
        LookupDescends(r, prefix, segs, |level|, cs');
        InsertThenLookup([], p, rest, code);
      } else {
        var i := found.value;
        var cs := level[i].children.nodes;
        var cs' := Insert(cs, p, rest, code).value;
        assert r == level[i := level[i].(children := ChildList(cs'))];
        FindIndexByPaths(level, r, p);
        LookupDescends(r, prefix, segs, i, cs');
        LookupDescends(level, prefix, segs, i, cs);
        InsertThenLookup(cs, p, rest, code);
      }
    }
  }

  /** So the step's path then holds a node stored under it with the step's code. */
  lemma LookupAfterInsert(level: seq<Node>, prefix: string, segs: seq<string>, code: Option<string>)
    requires |segs| >= 1
    requires Insert(level, prefix, segs, code).Success?
    ensures Lookup(Insert(level, prefix, segs, code).value, prefix, segs).Some? &&
            Lookup(Insert(level, prefix, segs, code).value, prefix, segs).value.path == PathOf(prefix, segs) &&
            Lookup(Insert(level, prefix, segs, code).value, prefix, segs).value.content == code
  {
    InsertThenLookup(level, prefix, segs, code);
    if Lookup(level, prefix, segs).Some? {
      LookupFindsPath(level, prefix, segs);
    }
  }

  /**
   * Nothing else changes: every path that is not the step's path or one of its
   * ancestors looks up exactly as before the walk.
   */
  lemma {:induction false} InsertFrame(level: seq<Node>, prefix: string, segs: seq<string>, code: Option<string>, other: seq<string>)
    requires |segs| >= 1 && |other| >= 1
    requires Insert(level, prefix, segs, code).Success?
    requires !(other <= segs)
    ensures Lookup(Insert(level, prefix, segs, code).value, prefix, other) == Lookup(level, prefix, other)
    decreases |segs|
  {
    var r := Insert(level, prefix, segs, code).value;
    var p := prefix + "/" + segs[0];
    var found := FindIndex(level, p);
    if other[0] != segs[0] {
      ChildPathInjective(prefix, other[0], segs[0]);
      ShapeKeepsOtherPaths(level, r, p, prefix + "/" + other[0]);
    } else if |segs| == 1 {
      if found.None? {
        FindIndexAppended(level, FileNode(segs[0], p, code));
      } else {
        FindIndexByPaths(level, r, p);
      }
    } else {
      assert !(other[1..] <= segs[1..]);
      if found.None? {
        var cs' := Insert([], p, segs[1..], code).value;
        FindIndexAppended(level, FolderNode(segs[0], p).(children := ChildList(cs')));
        InsertFrame([], p, segs[1..], code, other[1..]);
      } else {
        var cs := level[found.value].children.nodes;
        FindIndexByPaths(level, r, p);
        InsertFrame(cs, p, segs[1..], code, other[1..]);
      }
    }
  }

  /** From an empty level the walk builds exactly the chain of new folders ending in the file. */
  lemma {:induction false} InsertIntoEmpty(prefix: string, segs: seq<string>, code: Option<string>)
    requires |segs| >= 1
    ensures Insert([], prefix, segs, code) == Success(Chain(prefix, segs, code))
    decreases |segs|
  {
    var p := prefix + "/" + segs[0];
    assert FindIndex([], p) == None;
    if |segs| > 1 {
      InsertIntoEmpty(p, segs[1..], code);
      var x := FolderNode(segs[0], p).(children := ChildList(Chain(p, segs[1..], code)));
      var empty: seq<Node> := [];
      assert empty + [x] == [x];
    } else {
      var empty: seq<Node> := [];
      assert empty + [FileNode(segs[0], p, code)] == [FileNode(segs[0], p, code)];
    }
  }

  /**
   * How a walk over `segs` changes a level, at every depth: the level keeps the shape
   * `LevelShape` describes; at the last segment the node found keeps everything but its
   * `content`, which becomes the code, or a new file holding the code is appended; at an
   * earlier segment the node found keeps everything but its children, or a new empty
   * folder is appended, and its children change in the same way for the rest of the walk.
   */
  predicate ShapeAtEveryDepth(before: seq<Node>, after: seq<Node>, prefix: string, segs: seq<string>, code: Option<string>)
    requires |segs| >= 1
    decreases |segs|
  {
    var p := prefix + "/" + segs[0];
    && LevelShape(before, after, p)
    && match FindIndex(before, p)
       case Some(i) =>
         if |segs| == 1 then after[i] == before[i].(content := code)
         else
           && before[i].children.ChildList?
           && after[i].children.ChildList?
           && after[i] == before[i].(children := after[i].children)
           && ShapeAtEveryDepth(before[i].children.nodes, after[i].children.nodes, p, segs[1..], code)
       case None =>
         if |segs| == 1 then after[|before|] == FileNode(segs[0], p, code)
         else
           && after[|before|].children.ChildList?
           && after[|before|] == FolderNode(segs[0], p).(children := after[|before|].children)
           && ShapeAtEveryDepth([], after[|before|].children.nodes, p, segs[1..], code)
  }

  /**
   * Every level the walk passes through keeps its nodes in their slots, changes only
   * the node on the step's path, and grows only by one node at its end.
   */
  lemma {:induction false} InsertShapeAtEveryDepth(level: seq<Node>, prefix: string, segs: seq<string>, code: Option<string>)
    requires |segs| >= 1
    requires Insert(level, prefix, segs, code).Success?
    ensures ShapeAtEveryDepth(level, Insert(level, prefix, segs, code).value, prefix, segs, code)
    decreases |segs|
  {
    var p := prefix + "/" + segs[0];
    var r := Insert(level, prefix, segs, code).value;
    if |segs| > 1 {
      match FindIndex(level, p)
      case Some(i) =>
        var cs := level[i].children.nodes;
        InsertShapeAtEveryDepth(cs, p, segs[1..], code);
        assert r[i] == level[i].(children := ChildList(Insert(cs, p, segs[1..], code).value));
      case None =>
        InsertShapeAtEveryDepth([], p, segs[1..], code);
        assert r[|level|] == FolderNode(segs[0], p).(children := ChildList(Insert([], p, segs[1..], code).value));
    }
  }

  /** A looked-up node that a later segment cannot descend into: it has no `children`. */
  predicate Blocks(n: Option<Node>) {
    n.Some? && n.value.children.NoChildren?
  }

  /**
   * The only way the walk fails: one of the step's proper ancestor paths already
   * resolves to a node without children (in a well-formed tree, a file).
   */
  lemma {:induction false} InsertFailsIff(level: seq<Node>, prefix: string, segs: seq<string>, code: Option<string>)
    requires |segs| >= 1
    ensures Insert(level, prefix, segs, code).Failure? <==>
              exists k :: 1 <= k < |segs| && Blocks(Lookup(level, prefix, segs[..k]))
    decreases |segs|
  {
    var p := prefix + "/" + segs[0];
    var found := FindIndex(level, p);
    forall k | 1 <= k < |segs|
      ensures segs[..k][0] == segs[0]
    {
    }
    if |segs| > 1 {
      if found.None? {
        InsertIntoEmpty(p, segs[1..], code);
        forall k | 1 <= k < |segs|
          ensures !Blocks(Lookup(level, prefix, segs[..k]))
        {
        }
      } else if level[found.value].children.NoChildren? {
        assert Blocks(Lookup(level, prefix, segs[..1]));
      } else {
        var cs := level[found.value].children.nodes;
        InsertFailsIff(cs, p, segs[1..], code);
        forall k | 2 <= k < |segs|
          ensures Lookup(level, prefix, segs[..k]) == Lookup(cs, p, segs[1..][..k - 1])
        {
          assert segs[..k][1..] == segs[1..][..k - 1];
        }
        if Insert(cs, p, segs[1..], code).Failure? {
          var k :| 1 <= k < |segs| - 1 && Blocks(Lookup(cs, p, segs[1..][..k]));
          assert Blocks(Lookup(level, prefix, segs[..k + 1]));
        } else {
          forall k | 1 <= k < |segs|
            ensures !Blocks(Lookup(level, prefix, segs[..k]))
          {
            if k >= 2 {
              assert !Blocks(Lookup(cs, p, segs[1..][..k - 1]));
            }
          }
        }
      }
    }
  }

  /** Appending a node stored under a fresh path of this level keeps the level well formed. */
  lemma WellFormedAppend(level: seq<Node>, prefix: string, x: Node)
    requires WellFormed(level, prefix)
    requires x.path == prefix + "/" + x.name && NoSlash(x.name)
    requires forall j :: 0 <= j < |level| ==> level[j].path != x.path
    requires x.kind == Folder <==> x.children.ChildList?
    requires x.children.ChildList? ==> WellFormed(x.children.nodes, x.path)
    ensures WellFormed(level + [x], prefix)
  {
    var r := level + [x];
    assert forall j :: 0 <= j < |level| ==> r[j] == level[j];
    assert r[|level|] == x;
  }

  /** Replacing a node by one with the same name, path and kind and well-formed children keeps the level well formed. */
  lemma WellFormedReplace(level: seq<Node>, prefix: string, i: nat, x: Node)
    requires WellFormed(level, prefix)
    requires i < |level|
    requires x.name == level[i].name && x.path == level[i].path && x.kind == level[i].kind
    requires x.children.ChildList? == level[i].children.ChildList?
    requires x.children.ChildList? ==> WellFormed(x.children.nodes, x.path)
    ensures WellFormed(level[i := x], prefix)
  {
    var r := level[i := x];
    assert forall j :: 0 <= j < |level| && j != i ==> r[j] == level[j];
    assert r[i] == x;
  }

  /**
   * The walk of a split path keeps the tree well formed: names without '/', paths built
   * from names, no duplicate paths among siblings.
   */
  lemma {:induction false} InsertKeepsWellFormed(level: seq<Node>, prefix: string, segs: seq<string>, code: Option<string>)
    requires |segs| >= 1
    requires forall k :: 0 <= k < |segs| ==> NoSlash(segs[k])
    requires WellFormed(level, prefix)
    requires Insert(level, prefix, segs, code).Success?
    ensures WellFormed(Insert(level, prefix, segs, code).value, prefix)
    decreases |segs|
  {
    var p := prefix + "/" + segs[0];
    var found := FindIndex(level, p);
    if |segs| == 1 {
      if found.None? {
        assert NoSlash(segs[0]);
        WellFormedAppend(level, prefix, FileNode(segs[0], p, code));
      } else {
        WellFormedReplace(level, prefix, found.value, level[found.value].(content := code));
      }
    } else if found.None? {
      assert NoSlash(segs[0]);
      InsertKeepsWellFormed([], p, segs[1..], code);
      var cs' := Insert([], p, segs[1..], code).value;
      WellFormedAppend(level, prefix, FolderNode(segs[0], p).(children := ChildList(cs')));
    } else {
      var i := found.value;
      var cs := level[i].children.nodes;
      InsertKeepsWellFormed(cs, p, segs[1..], code);
      var cs' := Insert(cs, p, segs[1..], code).value;
      WellFormedReplace(level, prefix, i, level[i].(children := ChildList(cs')));
    }
  }

  /** Every path stored anywhere in the tree. */
  function AllPaths(level: seq<Node>): set<string>
    decreases level
  {
    if |level| == 0 then {} else NodePaths(level[0]) + AllPaths(level[1..])
  }

  /** The paths stored in one node's subtree. */
  function NodePaths(n: Node): set<string>
    decreases n
  {
    match n.children
    case NoChildren => {n.path}
    case ChildList(cs) => {n.path} + AllPaths(cs)
  }

  /** The paths a walk over `segs` from `prefix` passes through: each ancestor folder and the final node. */
  function WalkPaths(prefix: string, segs: seq<string>): set<string>
    requires |segs| >= 1
    decreases |segs|
  {
    var p := prefix + "/" + segs[0];
    if |segs| == 1 then {p} else {p} + WalkPaths(p, segs[1..])
  }

  lemma {:induction false} AllPathsConcat(a: seq<Node>, b: seq<Node>)
    ensures AllPaths(a + b) == AllPaths(a) + AllPaths(b)
    decreases |a|
  {
    if |a| == 0 {
      assert a + b == b;
    } else {
      assert (a + b)[0] == a[0];
      assert (a + b)[1..] == a[1..] + b;
      AllPathsConcat(a[1..], b);
    }
  }

  lemma AllPathsSingleton(x: Node)
    ensures AllPaths([x]) == NodePaths(x)
  {
    assert [x][1..] == [];
  }

  /** The tree's paths split around the node at index `i`. */
  lemma AllPathsAround(level: seq<Node>, i: nat)
    requires i < |level|
    ensures AllPaths(level) == AllPaths(level[..i]) + NodePaths(level[i]) + AllPaths(level[i + 1..])
  {
    var front := level[..i + 1];
    AllPathsSplitAt(level, i + 1);
    AllPathsSplitAt(front, i);
    assert front[..i] == level[..i];
    assert front[i..] == [level[i]];
    AllPathsSingleton(level[i]);
  }

  /** The tree's paths split at any index of the level. */
  lemma AllPathsSplitAt(level: seq<Node>, k: nat)
    requires k <= |level|
    ensures AllPaths(level) == AllPaths(level[..k]) + AllPaths(level[k..])
  {
    assert level[..k] + level[k..] == level;
    AllPathsConcat(level[..k], level[k..]);
  }

  /** Replacing the node at index `i` swaps its subtree's paths for the new node's. */
  lemma AllPathsReplace(level: seq<Node>, i: nat, x: Node)
    requires i < |level|
    ensures AllPaths(level[i := x]) == AllPaths(level[..i]) + NodePaths(x) + AllPaths(level[i + 1..])
  {
    AllPathsAround(level[i := x], i);
    assert level[i := x][..i] == level[..i];
    assert level[i := x][i + 1..] == level[i + 1..];
  }

  /** Growing a folder's children by the paths `added` grows the level's paths by exactly those. */
  lemma AllPathsGrowChildren(level: seq<Node>, i: nat, cs': seq<Node>, added: set<string>)
    requires i < |level| && level[i].children.ChildList?
    requires AllPaths(cs') == AllPaths(level[i].children.nodes) + added
    ensures AllPaths(level[i := level[i].(children := ChildList(cs'))]) == AllPaths(level) + added
  {
    var x := level[i].(children := ChildList(cs'));
    assert NodePaths(x) == NodePaths(level[i]) + added;
    AllPathsAround(level, i);
    AllPathsReplace(level, i, x);
  }

  /**
   * Ancestor creation and nothing else: a successful walk adds exactly the paths it
   * passes through (the missing ancestor folders and the final node) and loses none.
   */
  lemma {:induction false} InsertAddsWalkPaths(level: seq<Node>, prefix: string, segs: seq<string>, code: Option<string>)
    requires |segs| >= 1
    requires Insert(level, prefix, segs, code).Success?
    ensures AllPaths(Insert(level, prefix, segs, code).value) == AllPaths(level) + WalkPaths(prefix, segs)
    decreases |segs|
  {
    var p := prefix + "/" + segs[0];
    var found := FindIndex(level, p);
    if |segs| == 1 {
      if found.None? {
        AllPathsConcat(level, [FileNode(segs[0], p, code)]);
        AllPathsSingleton(FileNode(segs[0], p, code));
      } else {
        var i := found.value;
        AllPathsAround(level, i);
        AllPathsReplace(level, i, level[i].(content := code));
      }
    } else if found.None? {
      InsertAddsWalkPaths([], p, segs[1..], code);
      var x := FolderNode(segs[0], p).(children := ChildList(Insert([], p, segs[1..], code).value));
      AllPathsConcat(level, [x]);
      AllPathsSingleton(x);
    } else {
      var i := found.value;
      AllPathsAround(level, i);
      var cs := level[i].children.nodes;
      InsertAddsWalkPaths(cs, p, segs[1..], code);
      AllPathsGrowChildren(level, i, Insert(cs, p, segs[1..], code).value, WalkPaths(p, segs[1..]));
    }
  }

  /** A path that already looks up to a node is walked without failing and through existing nodes only. */
  lemma {:induction false} ExistingWalk(level: seq<Node>, prefix: string, segs: seq<string>, code: Option<string>)
    requires |segs| >= 1
    requires Lookup(level, prefix, segs).Some?
    ensures Insert(level, prefix, segs, code).Success?
    ensures WalkPaths(prefix, segs) <= AllPaths(level)
    decreases |segs|
  {
    var p := prefix + "/" + segs[0];
    var i := FindIndex(level, p).value;
    AllPathsAround(level, i);
    if |segs| > 1 {
      ExistingWalk(level[i].children.nodes, p, segs[1..], code);
    }
  }

  /** Upserting a path that already exists stores no new path anywhere in the tree. */
  lemma UpsertAddsNoPath(level: seq<Node>, prefix: string, segs: seq<string>, code: Option<string>)
    requires |segs| >= 1
    requires Lookup(level, prefix, segs).Some?
    ensures Insert(level, prefix, segs, code).Success? &&
            AllPaths(Insert(level, prefix, segs, code).value) == AllPaths(level)
  {
    ExistingWalk(level, prefix, segs, code);
    InsertAddsWalkPaths(level, prefix, segs, code);
  }

  /**
   * An existing folder is reused, not duplicated: a new file under it is appended at the
   * end of that folder's children, and the level itself keeps its length and order.
   */
  lemma FileAppendedToExistingFolder(level: seq<Node>, prefix: string, dir: string, name: string, code: Option<string>)
    requires FindIndex(level, prefix + "/" + dir).Some?
    requires level[FindIndex(level, prefix + "/" + dir).value].children.ChildList?
    requires FindIndex(level[FindIndex(level, prefix + "/" + dir).value].children.nodes, prefix + "/" + dir + "/" + name).None?
    ensures var i := FindIndex(level, prefix + "/" + dir).value;
      var cs := level[i].children.nodes;
      Insert(level, prefix, [dir, name], code) ==
        Success(level[i := level[i].(children := ChildList(cs + [FileNode(name, prefix + "/" + dir + "/" + name, code)]))])
  {
  }

  /** The number of nodes in the tree. */
  function Size(level: seq<Node>): nat
    decreases level
  {
    if |level| == 0 then 0 else NodeSize(level[0]) + Size(level[1..])
  }

  function NodeSize(n: Node): nat
    decreases n
  {
    match n.children
    case NoChildren => 1
    case ChildList(cs) => 1 + Size(cs)
  }

  /** The first node and the rest of a well-formed level are well formed on their own. */
  lemma WellFormedSplit(level: seq<Node>, prefix: string)
    requires WellFormed(level, prefix) && |level| > 0
    ensures WellFormed(level[1..], prefix)
    ensures level[0].children.ChildList? ==> WellFormed(level[0].children.nodes, level[0].path)
  {
    var rest := level[1..];
    assert forall j :: 0 <= j < |rest| ==> rest[j] == level[j + 1];
  }

  /** The paths below the first node of a well-formed level are stored nowhere else in it. */
  lemma HeadDisjoint(level: seq<Node>, prefix: string)
    requires WellFormed(level, prefix) && |level| > 0
    requires forall q :: q in NodePaths(level[0]) ==> Within(q, level[0].path)
    requires forall q :: q in AllPaths(level[1..]) ==> exists j :: 0 <= j < |level[1..]| && Within(q, level[1..][j].path)
    ensures NodePaths(level[0]) * AllPaths(level[1..]) == {}
  {
    var rest := level[1..];
    forall q | q in NodePaths(level[0]) ensures q !in AllPaths(rest) {
      if q in AllPaths(rest) {
        var j :| 0 <= j < |rest| && Within(q, rest[j].path);
        assert rest[j] == level[j + 1];
        SiblingsDisjoint(prefix, level[0].name, rest[j].name, q);
      }
    }
  }

  /**
   * At most one node per path anywhere in a well-formed tree: it stores as many
   * distinct paths as it has nodes, and each stored path lies within one of the level's
   * nodes.
   */
  lemma {:induction false} PathsUnique(level: seq<Node>, prefix: string)
    requires WellFormed(level, prefix)
    ensures |AllPaths(level)| == Size(level)
    ensures forall q :: q in AllPaths(level) ==> exists j :: 0 <= j < |level| && Within(q, level[j].path)
    decreases level
  {
    if |level| > 0 {
      var rest := level[1..];
      WellFormedSplit(level, prefix);
      NodePathsUnique(level[0]);
      PathsUnique(rest, prefix);
      HeadDisjoint(level, prefix);
      CoveredByLevel(level);
    }
  }

  /** Each path of a level lies within its first node or within a node of the rest. */
  lemma CoveredByLevel(level: seq<Node>)
    requires |level| > 0
    requires forall q :: q in NodePaths(level[0]) ==> Within(q, level[0].path)
    requires forall q :: q in AllPaths(level[1..]) ==> exists j :: 0 <= j < |level[1..]| && Within(q, level[1..][j].path)
    ensures forall q :: q in AllPaths(level) ==> exists j :: 0 <= j < |level| && Within(q, level[j].path)
  {
    var rest := level[1..];
    assert AllPaths(level) == NodePaths(level[0]) + AllPaths(rest);
    forall q | q in AllPaths(level) ensures exists j :: 0 <= j < |level| && Within(q, level[j].path) {
      if q !in NodePaths(level[0]) {
        var j :| 0 <= j < |rest| && Within(q, rest[j].path);
        assert rest[j] == level[j + 1];
      }
    }
  }

  /** A node whose children are well formed under its path stores one path per node of its subtree, all within its own. */
  lemma {:induction false} NodePathsUnique(n: Node)
    requires n.children.ChildList? ==> WellFormed(n.children.nodes, n.path)
    ensures |NodePaths(n)| == NodeSize(n)
    ensures forall q :: q in NodePaths(n) ==> Within(q, n.path)
    decreases n
  {
    if n.children.ChildList? {
      var cs := n.children.nodes;
      PathsUnique(cs, n.path);
      forall q | q in AllPaths(cs) ensures Within(q, n.path) && q != n.path {
        var j :| 0 <= j < |cs| && Within(q, cs[j].path);
        assert n.path + "/" <= q by {
          assert cs[j].path == n.path + "/" + cs[j].name;
        }
      }
      assert {n.path} * AllPaths(cs) == {};
    }
  }
}

=== FILE: mount.dfy ===
/**
 * The second effect of Builder.tsx (lines 112-149): `createMountStructure` turns the
 * file tree into the nested descriptor handed to the WebContainer's `mount`. Its helper
 * `processFile` writes every folder, at any depth, and every top-level file into the
 * one top-level result object, and returns each node's own entry to its parent.
 */
module Mount {
  import opened Paths
  import opened FileTree

  /** One descriptor entry: `{file: {contents}}` or `{directory: {...}}`. */
  datatype MEntry = MFile(contents: string) | MDir(entries: map<string, MEntry>)

  type Descriptor = map<string, MEntry>

  /** A file's mounted contents: its `content`, or the empty string when that is missing. */
  function Contents(n: Node): string {
    n.content.GetOr("")
  }

  /**
   * The entry a node stands for on its own: a file gives its contents, a folder a
   * directory of its children's entries (empty when it has no `children`).
   */
  function Entry(n: Node): MEntry
    decreases n
  {
    match n.kind
    case File => MFile(Contents(n))
    case Folder =>
      match n.children
      case NoChildren => MDir(map[])
      case ChildList(cs) => MDir(Entries(cs))
  }

  /** A directory built from the children in order, as `fromEntries` builds it: a later sibling of the same name wins. */
  function Entries(cs: seq<Node>): Descriptor
    decreases cs
  {
    if |cs| == 0 then map[]
    else Entries(cs[..|cs| - 1])[cs[|cs| - 1].name := Entry(cs[|cs| - 1])]
  }

  /**
   * `processFile` for node `n` and its top-level flag, with the shared `mountStructure`
   * threaded through as `root`: the updated root and the value returned to the caller. A folder first
   * processes its children (which write their folders into the root), then writes its
   * own directory entry under its name; a file writes only when it is top-level. What
   * it returns does not depend on the root: it is the node's own entry.
   */
  function ProcessNode(n: Node, isRoot: bool, root: Descriptor): (r: (Descriptor, MEntry))
    ensures r.1 == Entry(n)
    decreases n
  {
    match n.kind
    case Folder =>
      var (dir, root') :=
        match n.children
        case NoChildren => (map[], root)
        case ChildList(cs) => ProcessChildren(cs, root);
      (root'[n.name := MDir(dir)], MDir(dir))
    case File =>
      var e := MFile(Contents(n));
      if isRoot then (root[n.name := e], e) else (root, e)
  }

  /**
   * A folder's directory: each child, left to right, is processed as a nested node and
   * its returned value listed under its name. The directory is its children's own
   * entries, whatever the root holds.
   */
  function ProcessChildren(cs: seq<Node>, root: Descriptor): (r: (Descriptor, Descriptor))
    ensures r.0 == Entries(cs)
    decreases cs
  {
    if |cs| == 0 then (map[], root)
    else
      var (dir, root') := ProcessChildren(cs[..|cs| - 1], root);
      var (root'', e) := ProcessNode(cs[|cs| - 1], false, root');
      (dir[cs[|cs| - 1].name := e], root'')
  }

  /**
   * The top-level loop: every top-level node, in order, is processed as a top-level
   * node. The root gains exactly the top-level names and every folder name at any depth
   * (nested folders leak into the root).
   */
  function ProcessRoots(files: seq<Node>, root: Descriptor): (r: Descriptor)
    ensures r.Keys == root.Keys + Names(files) + FolderNames(files)
    decreases |files|
  {
    if |files| == 0 then root
    else
      var init := files[..|files| - 1];
      ProcessNodeWrites(files[|files| - 1], true, ProcessRoots(init, root));
      NamesSnoc(files);
      ProcessNode(files[|files| - 1], true, ProcessRoots(init, root)).0
  }

  /**
   * `createMountStructure`: the descriptor of the whole tree, keyed by every top-level
   * name and every folder name at any depth, and nothing else.
   */
  function Project(files: seq<Node>): (r: Descriptor)
    ensures r.Keys == Names(files) + FolderNames(files)
  {
    ProcessRoots(files, map[])
  }

  /** Names of all folders in these subtrees, at any depth. */
  function FolderNames(cs: seq<Node>): set<string>
    decreases cs
  {
    if |cs| == 0 then {} else FolderNames(cs[..|cs| - 1]) + FolderNamesOf(cs[|cs| - 1])
  }

  function FolderNamesOf(n: Node): set<string>
    decreases n
  {
    match n.kind
    case File => {}
    case Folder =>
      match n.children
      case NoChildren => {n.name}
      case ChildList(cs) => {n.name} + FolderNames(cs)
  }

  /** The root keys processing `n` writes: its folders at every depth, and itself when top-level. */
  function Written(n: Node, isRoot: bool): set<string> {
    FolderNamesOf(n) + (if isRoot then {n.name} else {})
  }

  function Names(files: seq<Node>): set<string> {
    set i | 0 <= i < |files| :: files[i].name
  }

  /** The names of a list are those of all but its last node, plus the last node's. */
  lemma NamesSnoc(cs: seq<Node>)
    requires |cs| > 0
    ensures Names(cs) == Names(cs[..|cs| - 1]) + {cs[|cs| - 1].name}
  {
    var init := cs[..|cs| - 1];
    forall x | x in Names(cs) ensures x in Names(init) + {cs[|cs| - 1].name} {
      var i :| 0 <= i < |cs| && cs[i].name == x;
      if i < |init| {
        assert init[i].name == x;
      }
    }
    forall x | x in Names(init) ensures x in Names(cs) {
      var i :| 0 <= i < |init| && init[i].name == x;
      assert cs[i].name == x;
    }
  }

  /** A directory lists exactly its children's names. */
  lemma {:induction false} EntriesKeys(cs: seq<Node>)
    ensures Entries(cs).Keys == Names(cs)
    decreases |cs|
  {
    if |cs| > 0 {
      EntriesKeys(cs[..|cs| - 1]);
      NamesSnoc(cs);
    }
  }

  /** A child whose name no later sibling reuses is listed with its own entry. */
  lemma {:induction false} EntriesValues(cs: seq<Node>, i: nat)
    requires i < |cs|
    requires forall j :: i < j < |cs| ==> cs[j].name != cs[i].name
    ensures cs[i].name in Entries(cs) && Entries(cs)[cs[i].name] == Entry(cs[i])
    decreases |cs|
  {
    if i < |cs| - 1 {
      var init := cs[..|cs| - 1];
      assert init[i] == cs[i];
      assert forall j :: i < j < |init| ==> init[j] == cs[j];
      EntriesValues(init, i);
    }
  }

  /**
   * In a well-formed tree sibling names differ, so a folder's directory maps each child's
   * name to that child's entry, with no omissions and no additions.
   */
  lemma FolderProjection(n: Node)
    requires n.kind == Folder && n.children.ChildList?
    requires WellFormed(n.children.nodes, n.path)
    ensures Entry(n).MDir?
    ensures Entry(n).entries.Keys == Names(n.children.nodes)
    ensures forall i :: 0 <= i < |n.children.nodes| ==>
              Entry(n).entries[n.children.nodes[i].name] == Entry(n.children.nodes[i])
  {
    var cs := n.children.nodes;
    EntriesKeys(cs);
    forall i | 0 <= i < |cs|
      ensures Entries(cs)[cs[i].name] == Entry(cs[i])
    {
      forall j | i < j < |cs| ensures cs[j].name != cs[i].name {
        ChildPathInjective(n.path, cs[i].name, cs[j].name);
      }
      EntriesValues(cs, i);
    }
  }

  /**
   * What processing does to the shared root: it gains exactly the keys the node writes
   * (its folders at every depth, and itself when top-level), and every other key keeps
   * its value.
   */
  lemma {:induction false} ProcessNodeWrites(n: Node, isRoot: bool, root: Descriptor)
    ensures ProcessNode(n, isRoot, root).0.Keys == root.Keys + Written(n, isRoot)
    ensures forall k :: k in root && k !in Written(n, isRoot) ==> ProcessNode(n, isRoot, root).0[k] == root[k]
    decreases n
  {
    if n.kind == Folder && n.children.ChildList? {
      ProcessChildrenWrites(n.children.nodes, root);
    }
  }

  lemma {:induction false} ProcessChildrenWrites(cs: seq<Node>, root: Descriptor)
    ensures ProcessChildren(cs, root).1.Keys == root.Keys + FolderNames(cs)
    ensures forall k :: k in root && k !in FolderNames(cs) ==> ProcessChildren(cs, root).1[k] == root[k]
    decreases cs
  {
    if |cs| > 0 {
      var init := cs[..|cs| - 1];
      ProcessChildrenWrites(init, root);
      ProcessNodeWrites(cs[|cs| - 1], false, ProcessChildren(init, root).1);
    }
  }

  /**
   * A node's own write comes after its children's, so right after processing a folder at
   * any depth, or a top-level file, the root holds its own entry under its name; a nested
   * file writes nothing.
   */
  lemma RootHoldsOwnEntry(n: Node, isRoot: bool, root: Descriptor)
    ensures n.kind == Folder || isRoot ==>
              n.name in ProcessNode(n, isRoot, root).0 && ProcessNode(n, isRoot, root).0[n.name] == Entry(n)
    ensures n.kind == File && !isRoot ==> ProcessNode(n, isRoot, root).0 == root
  {
  }

  /**
   * A top-level node whose name no later top-level node writes (neither as its own name
   * nor as one of its folders) is mounted under its name with its own entry.
   */
  lemma {:induction false} ProcessRootsTopLevel(files: seq<Node>, root: Descriptor, i: nat)
    requires i < |files|
    requires forall j :: i < j < |files| ==> files[i].name !in Written(files[j], true)
    ensures files[i].name in ProcessRoots(files, root)
    ensures ProcessRoots(files, root)[files[i].name] == Entry(files[i])
    decreases |files|
  {
    var init := files[..|files| - 1];
    if i == |files| - 1 {
      RootHoldsOwnEntry(files[i], true, ProcessRoots(init, root));
    } else {
      assert init[i] == files[i];
      assert forall j :: i < j < |init| ==> init[j] == files[j];
      ProcessRootsTopLevel(init, root, i);
      ProcessNodeWrites(files[|files| - 1], true, ProcessRoots(init, root));
    }
  }

  lemma ProjectTopLevel(files: seq<Node>, i: nat)
    requires i < |files|
    requires forall j :: i < j < |files| ==> files[i].name !in Written(files[j], true)
    ensures files[i].name in Project(files) && Project(files)[files[i].name] == Entry(files[i])
  {
    ProcessRootsTopLevel(files, map[], i);
  }

  /**
   * The nodes that write into the root while a node is processed, in the order they
   * write: a folder's descendants first (children left to right), then the folder
   * itself; a file only when it is top-level.
   */
  function Writers(n: Node, isRoot: bool): seq<Node>
    decreases n
  {
    match n.kind
    case File => if isRoot then [n] else []
    case Folder =>
      match n.children
      case NoChildren => [n]
      case ChildList(cs) => ChildWriters(cs) + [n]
  }

  function ChildWriters(cs: seq<Node>): seq<Node>
    decreases cs
  {
    if |cs| == 0 then [] else ChildWriters(cs[..|cs| - 1]) + Writers(cs[|cs| - 1], false)
  }

  /** The writers of the whole top-level loop, in order. */
  function RootWriters(files: seq<Node>): seq<Node>
    decreases |files|
  {
    if |files| == 0 then [] else RootWriters(files[..|files| - 1]) + Writers(files[|files| - 1], true)
  }

  /** Each writer, in order, stores its own entry under its name. */
  function Replay(root: Descriptor, ws: seq<Node>): Descriptor
    decreases |ws|
  {
    if |ws| == 0 then root else Replay(root, ws[..|ws| - 1])[ws[|ws| - 1].name := Entry(ws[|ws| - 1])]
  }

  lemma {:induction false} ReplayAppend(root: Descriptor, a: seq<Node>, b: seq<Node>)
    ensures Replay(root, a + b) == Replay(Replay(root, a), b)
    decreases |b|
  {
    if |b| == 0 {
      assert a + b == a;
    } else {
      assert (a + b)[..|a + b| - 1] == a + b[..|b| - 1];
      assert (a + b)[|a + b| - 1] == b[|b| - 1];
      ReplayAppend(root, a, b[..|b| - 1]);
    }
  }

  /**
   * What processing does to the shared root, value by value: it is the replay of the
   * node's writers in post-order, each storing its own entry under its name.
   */
  lemma {:induction false} ProcessNodeReplays(n: Node, isRoot: bool, root: Descriptor)
    ensures ProcessNode(n, isRoot, root).0 == Replay(root, Writers(n, isRoot))
    decreases n
  {
    var one: seq<Node> := [n];
    assert one[..0] == [];
    if n.kind == Folder && n.children.ChildList? {
      var cs := n.children.nodes;
      ProcessChildrenReplays(cs, root);
      ReplayAppend(root, ChildWriters(cs), one);
    }
  }

  lemma {:induction false} ProcessChildrenReplays(cs: seq<Node>, root: Descriptor)
    ensures ProcessChildren(cs, root).1 == Replay(root, ChildWriters(cs))
    decreases cs
  {
    if |cs| > 0 {
      var init := cs[..|cs| - 1];
      ProcessChildrenReplays(init, root);
      ProcessNodeReplays(cs[|cs| - 1], false, ProcessChildren(init, root).1);
      ReplayAppend(root, ChildWriters(init), Writers(cs[|cs| - 1], false));
    }
  }

  lemma {:induction false} ProcessRootsReplays(files: seq<Node>, root: Descriptor)
    ensures ProcessRoots(files, root) == Replay(root, RootWriters(files))
    decreases |files|
  {
    if |files| > 0 {
      var init := files[..|files| - 1];
      ProcessRootsReplays(init, root);
      ProcessNodeReplays(files[|files| - 1], true, ProcessRoots(init, root));
      ReplayAppend(root, RootWriters(init), Writers(files[|files| - 1], true));
    }
  }

  /** After a replay, a writer that no later writer shares a name with holds its own entry. */
  lemma {:induction false} ReplayLastWriter(root: Descriptor, ws: seq<Node>, i: nat)
    requires i < |ws|
    requires forall j :: i < j < |ws| ==> ws[j].name != ws[i].name
    ensures ws[i].name in Replay(root, ws) && Replay(root, ws)[ws[i].name] == Entry(ws[i])
    decreases |ws|
  {
    if i < |ws| - 1 {
      var init := ws[..|ws| - 1];
      assert init[i] == ws[i];
      assert forall j :: i < j < |init| ==> init[j] == ws[j];
      ReplayLastWriter(root, init, i);
    }
  }

  /**
   * Every value of the descriptor: under a name, the entry of the last node, in the
   * order the nodes write, that writes that name (a folder at any depth after its
   * descendants, or a top-level file).
   */
  lemma ProjectLastWriter(files: seq<Node>, i: nat)
    requires i < |RootWriters(files)|
    requires forall j :: i < j < |RootWriters(files)| ==> RootWriters(files)[j].name != RootWriters(files)[i].name
    ensures RootWriters(files)[i].name in Project(files)
    ensures Project(files)[RootWriters(files)[i].name] == Entry(RootWriters(files)[i])
  {
    ProcessRootsReplays(files, map[]);
    ReplayLastWriter(map[], RootWriters(files), i);
  }
}

=== FILE: paths.dfy ===
/**
 * Slash-separated paths as Builder.tsx handles them: a step's path is cut with
 * JavaScript's string split on '/', and each node's stored path is grown one segment
 * at a time, as the parent folder's path, a '/' and the segment, starting from the
 * empty string.
 */
module Paths {

  predicate NoSlash(s: string) {
    '/' !in s
  }

  /** Index of the first '/' in `s`. */
  function FirstSlash(s: string): (i: nat)
    requires '/' in s
    ensures i < |s| && s[i] == '/' && NoSlash(s[..i])
  {
    if s[0] == '/' then 0
    else
      var j := FirstSlash(s[1..]);
      j + 1
  }

  /**
   * JavaScript's split on '/': cuts at every '/', keeping empty segments, so the result is never
   * empty ("" gives [""], "/a" gives ["", "a"], "a/" gives ["a", ""]).
   */
  function Split(s: string): (segs: seq<string>)
    ensures |segs| >= 1
    ensures forall k :: 0 <= k < |segs| ==> NoSlash(segs[k])
    decreases |s|
  {
    if '/' in s then
      var i := FirstSlash(s);
      [s[..i]] + Split(s[i + 1..])
    else
      [s]
  }

  /** The segments glued back together with '/' between them: the inverse of Split. */
  function Join(segs: seq<string>): string
    requires |segs| >= 1
  {
    if |segs| == 1 then segs[0] else segs[0] + "/" + Join(segs[1..])
  }

  /** The path a walk reaches from `prefix` after consuming `segs`, one `"/" + segment` per step. */
  function PathOf(prefix: string, segs: seq<string>): string
    decreases |segs|
  {
    if |segs| == 0 then prefix else PathOf(prefix + "/" + segs[0], segs[1..])
  }

  /** Joining the pieces of a split gives the original string back. */
  lemma {:induction false} JoinSplit(s: string)
    ensures Join(Split(s)) == s
    decreases |s|
  {
    if '/' in s {
      var i := FirstSlash(s);
      var rest := Split(s[i + 1..]);
      assert Split(s) == [s[..i]] + rest;
      assert ([s[..i]] + rest)[1..] == rest;
      JoinSplit(s[i + 1..]);
      assert s == s[..i] + "/" + s[i + 1..];
    }
  }

  /** The first slash of `a + "/" + b` sits right after `a` when `a` has none. */
  lemma FirstSlashAfter(a: string, b: string)
    requires NoSlash(a)
    ensures '/' in a + "/" + b
    ensures FirstSlash(a + "/" + b) == |a|
  {
    var s := a + "/" + b;
    assert s[|a|] == '/';
    assert forall j :: 0 <= j < |a| ==> s[j] == a[j];
  }

  /** Splitting a join of slash-free segments gives the segments back. */
  lemma {:induction false} SplitJoin(segs: seq<string>)
    requires |segs| >= 1
    requires forall k :: 0 <= k < |segs| ==> NoSlash(segs[k])
    ensures Split(Join(segs)) == segs
    decreases |segs|
  {
    if |segs| > 1 {
      var a, b := segs[0], Join(segs[1..]);
      FirstSlashAfter(a, b);
      var s := a + "/" + b;
      assert s[..|a|] == a;
      assert s[|a| + 1..] == b;
      assert Split(s) == [a] + Split(b);
      SplitJoin(segs[1..]);
      assert segs == [a] + segs[1..];
    }
  }

  /** A walk from `prefix` over `segs` reaches `prefix + "/" + Join(segs)`. */
  lemma {:induction false} PathOfJoin(prefix: string, segs: seq<string>)
    requires |segs| >= 1
    ensures PathOf(prefix, segs) == prefix + "/" + Join(segs)
    decreases |segs|
  {
    if |segs| > 1 {
      PathOfJoin(prefix + "/" + segs[0], segs[1..]);
      assert prefix + "/" + segs[0] + "/" + Join(segs[1..]) == prefix + "/" + (segs[0] + "/" + Join(segs[1..]));
    }
  }

  /** So the node a step's path `p` lands on is stored under `"/" + p`. */
  lemma StoredPath(p: string)
    ensures PathOf("", Split(p)) == "/" + p
  {
    PathOfJoin("", Split(p));
    JoinSplit(p);
  }

  /** Extending the same prefix by two different segments gives two different paths. */
  lemma ChildPathInjective(prefix: string, a: string, b: string)
    ensures prefix + "/" + a == prefix + "/" + b <==> a == b
  {
    if prefix + "/" + a == prefix + "/" + b {
      assert (prefix + "/" + a)[|prefix| + 1..] == a;
      assert (prefix + "/" + b)[|prefix| + 1..] == b;
    }
  }

  /** `q` is the path `p` itself or a path below it. */
  predicate Within(q: string, p: string) {
    q == p || p + "/" <= q
  }

  /** Two slash-free names that both lead into `q` from the same folder are equal. */
  lemma SegmentClash(folder: string, a: string, b: string, q: string)
    requires NoSlash(a) && NoSlash(b)
    requires Within(q, folder + a) && Within(q, folder + b)
    ensures a == b
  {
    var n := |folder|;
    assert folder + a <= q && folder + b <= q;
    forall k | 0 <= k < |a| ensures q[n + k] == a[k] {
      assert (folder + a)[n + k] == a[k];
    }
    forall k | 0 <= k < |b| ensures q[n + k] == b[k] {
      assert (folder + b)[n + k] == b[k];
    }
    // each name ends where `q` ends or at a '/'
    assert n + |a| < |q| ==> q[n + |a|] == (folder + a + "/")[n + |a|] == '/';
    assert n + |b| < |q| ==> q[n + |b|] == (folder + b + "/")[n + |b|] == '/';
    assert |a| == |b|;
  }

  /** Paths below two differently named children of one folder never meet. */
  lemma SiblingsDisjoint(prefix: string, a: string, b: string, q: string)
    requires NoSlash(a) && NoSlash(b) && a != b
    requires Within(q, prefix + "/" + a)
    ensures !Within(q, prefix + "/" + b)
  {
    assert prefix + "/" + a == (prefix + "/") + a && prefix + "/" + b == (prefix + "/") + b;
    if Within(q, prefix + "/" + b) {
      SegmentClash(prefix + "/", a, b, q);
    }
  }
}

=== FILE: scenarios.dfy ===
/**
 * Concrete runs of the two effects, showing the path handling and projection quirks of
 * Builder.tsx on small trees.
 */
module Scenarios {
  import opened Wrappers
  import opened Paths
  import opened FileTree
  import opened Steps
  import opened Mount

  lemma SplitABC()
    ensures Split("a/b/c") == ["a", "b", "c"]
  {
    assert Join(["a", "b", "c"]) == "a/b/c";
    SplitJoin(["a", "b", "c"]);
  }

  lemma ChainABC(code: Option<string>)
    ensures Chain("", ["a", "b", "c"], code) ==
      [Node("a", Folder, "/a", None, ChildList([
         Node("b", Folder, "/a/b", None, ChildList([
           Node("c", File, "/a/b/c", code, NoChildren)]))]))]
  {
    assert ["a", "b", "c"][1..] == ["b", "c"] && ["b", "c"][1..] == ["c"];
    assert "" + "/" + "a" == "/a" && "/a" + "/" + "b" == "/a/b" && "/a/b" + "/" + "c" == "/a/b/c";
    var c := Chain("/a/b", ["c"], code);
    assert c == [Node("c", File, "/a/b/c", code, NoChildren)];
    var b := Chain("/a", ["b", "c"], code);
    assert b == [Node("b", Folder, "/a/b", None, ChildList(c))];
  }

  /**
   * A `CreateFile` for `a/b/c` into the empty tree makes one folder `/a` holding one
   * folder `/a/b` holding one file `/a/b/c` with the step's code, and nothing else.
   */
  lemma NestedFileIntoEmptyTree(code: Option<string>)
    ensures ApplyStep([], Step(CreateFile, Pending, Some("a/b/c"), code)) ==
      Success([Node("a", Folder, "/a", None, ChildList([
                 Node("b", Folder, "/a/b", None, ChildList([
                   Node("c", File, "/a/b/c", code, NoChildren)]))]))])
  {
    var step := Step(CreateFile, Pending, Some("a/b/c"), code);
    SplitABC();
    assert ApplyStep([], step) == Insert([], "", ["a", "b", "c"], code);
    InsertIntoEmpty("", ["a", "b", "c"], code);
    ChainABC(code);
  }

  lemma SplitIndexHtml()
    ensures Split("/index.html") == ["", "index.html"]
  {
    SplitJoin(["", "index.html"]);
  }

  lemma ChainIndexHtml(code: Option<string>)
    ensures Chain("", ["", "index.html"], code) ==
      [Node("", Folder, "/", None, ChildList([Node("index.html", File, "//index.html", code, NoChildren)]))]
  {
    assert ["", "index.html"][1..] == ["index.html"];
    assert "" + "/" + "" == "/" && "/" + "/" + "index.html" == "//index.html";
    assert Chain("/", ["index.html"], code) == [Node("index.html", File, "//index.html", code, NoChildren)];
  }

  /**
   * A leading slash is an empty first segment: `/index.html` lands in a folder named ""
   * stored at "/", as the file "//index.html", and the step is marked completed.
   */
  lemma LeadingSlashMakesEmptyFolder(html: string)
    ensures var step := Step(CreateFile, Pending, Some("/index.html"), Some(html));
      var tree := [Node("", Folder, "/", None, ChildList([Node("index.html", File, "//index.html", Some(html), NoChildren)]))];
      Pass(Snapshot([], [step])) == Success(Snapshot(tree, [step.(status := Completed)]))
  {
    var step := Step(CreateFile, Pending, Some("/index.html"), Some(html));
    var tree := [Node("", Folder, "/", None, ChildList([Node("index.html", File, "//index.html", Some(html), NoChildren)]))];
    SplitIndexHtml();
    assert ApplyStep([], step) == Insert([], "", ["", "index.html"], Some(html));
    InsertIntoEmpty("", ["", "index.html"], Some(html));
    ChainIndexHtml(Some(html));
    assert [step][1..] == [];
    assert FoldPending([], [step]) == Success(tree);
    assert AnyPending([step]) by {
      assert [step][0].status == Pending;
    }
    var after := Pass(Snapshot([], [step]));
    assert after.Success? && after.value.files == tree;
    assert after.value.steps == [step.(status := Completed)] by {
      assert |after.value.steps| == 1 && after.value.steps[0] == [step][0].(status := Completed);
    }
  }

  /** That tree mounts as a directory named "" holding `index.html`. */
  lemma LeadingSlashMount(html: string)
    ensures var file := Node("index.html", File, "//index.html", Some(html), NoChildren);
      var folder := Node("", Folder, "/", None, ChildList([file]));
      Project([folder]) == map["" := MDir(map["index.html" := MFile(html)])]
  {
    var file := Node("index.html", File, "//index.html", Some(html), NoChildren);
    var folder := Node("", Folder, "/", None, ChildList([file]));
    assert [file][..0] == [] && [folder][..0] == [];
    assert ProcessChildren([file], map[]) == (map["index.html" := MFile(html)], map[]);
    assert ProcessNode(folder, true, map[]).0 == map["" := MDir(map["index.html" := MFile(html)])];
    assert ProcessRoots([folder], map[]) == ProcessNode(folder, true, ProcessRoots([], map[])).0;
  }

  /** A final segment that finds a folder writes the step's code onto that folder; its children stay. */
  lemma FolderReceivesContent(code: Option<string>)
    ensures var src := Node("src", Folder, "/src", None, ChildList([]));
      ApplyStep([src], Step(CreateFile, Pending, Some("src"), code)) == Success([src.(content := code)])
  {
    assert Join(["src"]) == "src";
    SplitJoin(["src"]);
    var src := Node("src", Folder, "/src", None, ChildList([]));
    assert "" + "/" + "src" == "/src";
    assert FindIndex([src], "/src") == Some(0);
    assert [src][0 := src.(content := code)] == [src.(content := code)];
  }

  /** A non-final segment that finds a file makes the walk throw. */
  lemma FileInTheWay(code: Option<string>)
    ensures var a := Node("a", File, "/a", Some("x"), NoChildren);
      ApplyStep([a], Step(CreateFile, Pending, Some("a/b"), code)) == Failure(NotADirectory("/a"))
  {
    SplitJoin(["a", "b"]);
  }

  /**
   * Nested folders leak into the root: `src/components/Button.tsx` mounts `src` as a
   * directory and also `components` as a top-level key.
   */
  lemma NestedFolderMountedAtRoot(code: string)
    ensures var button := Node("Button.tsx", File, "/src/components/Button.tsx", Some(code), NoChildren);
      var components := Node("components", Folder, "/src/components", None, ChildList([button]));
      var src := Node("src", Folder, "/src", None, ChildList([components]));
      var dir := map["Button.tsx" := MFile(code)];
      Project([src]) == map["src" := MDir(map["components" := MDir(dir)]), "components" := MDir(dir)]
  {
    var button := Node("Button.tsx", File, "/src/components/Button.tsx", Some(code), NoChildren);
    var components := Node("components", Folder, "/src/components", None, ChildList([button]));
    var src := Node("src", Folder, "/src", None, ChildList([components]));
    var dir := map["Button.tsx" := MFile(code)];
    assert [button][..0] == [] && [components][..0] == [] && [src][..0] == [];
    assert ProcessChildren([button], map[]) == (dir, map[]);
    assert ProcessNode(components, false, map[]) == (map["components" := MDir(dir)], MDir(dir));
    assert ProcessChildren([components], map[]) == (map["components" := MDir(dir)], map["components" := MDir(dir)]);
    assert ProcessNode(src, true, map[]).0 == map["components" := MDir(dir)]["src" := MDir(map["components" := MDir(dir)])];
    assert ProcessRoots([src], map[]) == ProcessNode(src, true, ProcessRoots([], map[])).0;
  }

  /** A nested folder processed later overwrites the top-level file of the same name. */
  lemma NestedFolderOverwritesRootFile(code: string)
    ensures var lib := Node("lib", File, "/lib", Some(code), NoChildren);
      var inner := Node("lib", Folder, "/x/lib", None, ChildList([]));
      var x := Node("x", Folder, "/x", None, ChildList([inner]));
      Project([lib, x]) == map["lib" := MDir(map[]), "x" := MDir(map["lib" := MDir(map[])])]
  {
    var lib := Node("lib", File, "/lib", Some(code), NoChildren);
    var inner := Node("lib", Folder, "/x/lib", None, ChildList([]));
    var x := Node("x", Folder, "/x", None, ChildList([inner]));
    var root1 := map["lib" := MFile(code)];
    assert [lib, x][..1] == [lib] && [lib][..0] == [] && [inner][..0] == [];
    assert ProcessRoots([lib], map[]) == root1;
    assert ProcessChildren([], root1) == (map[], root1);
    assert root1["lib" := MDir(map[])] == map["lib" := MDir(map[])];
    assert ProcessNode(inner, false, root1) == (map["lib" := MDir(map[])], MDir(map[]));
    assert ProcessChildren([inner], root1) == (map["lib" := MDir(map[])], map["lib" := MDir(map[])]);
    assert ProcessRoots([lib, x], map[]) == ProcessNode(x, true, root1).0;
  }
}

=== FILE: steps.dfy ===
/**
 * The first effect of Builder.tsx (lines 47-109): fold every pending step, in list
 * order, into the file tree, and when at least one step was pending mark the whole
 * step list completed.
 */
module Steps {
  import opened Wrappers
  import opened Paths
  import opened FileTree

  datatype StepType = CreateFile | RunCommand | Comment

  /** The code compares only against "pending"; every other status behaves alike. */
  datatype Status = Pending | Completed

  /** The fields of a step the effect reads: its type, its status, and the optional `path` and `code`. */
  datatype Step = Step(kind: StepType, status: Status, path: Option<string>, code: Option<string>)

  /** The session state the effect reads and replaces: the tree and the step list. */
  datatype Snapshot = Snapshot(files: seq<Node>, steps: seq<Step>)

  /** The node a step path denotes: the walk's search, from the root, over the path's segments. */
  function Find(files: seq<Node>, path: string): Option<Node> {
    Lookup(files, "", Split(path))
  }

  /** True when the step would change the tree if it were pending. */
  predicate Writes(step: Step) {
    step.kind == CreateFile && step.path.Some?
  }

  /**
   * One pending step (Builder.tsx:52-93): a `CreateFile` with a path walks the tree;
   * any other step, and a `CreateFile` without a path (`split` of nothing is `[]`, so
   * the loop never runs), leaves it as it is.
   */
  function ApplyStep(files: seq<Node>, step: Step): (r: Result<seq<Node>, FoldError>)
    ensures !Writes(step) ==> r == Success(files)
    ensures Writes(step) && r.Success? ==>
      && Find(r.value, step.path.value).Some?
      && Find(r.value, step.path.value).value.content == step.code
      && Find(r.value, step.path.value).value.path == "/" + step.path.value
  {
    if Writes(step) then
      var segs := Split(step.path.value);
      var r := Insert(files, "", segs, step.code);
      if r.Success? then
        LookupAfterInsert(files, "", segs, step.code);
        StoredPath(step.path.value);
        r
      else r
    else Success(files)
  }

  /**
   * The pending steps folded left to right (Builder.tsx:50), each against the tree the
   * earlier ones produced; the first walk that throws ends the pass. Only a walk can
   * throw, so a failed pass always has a pending `CreateFile` step with a path.
   */
  function FoldPending(files: seq<Node>, steps: seq<Step>): (r: Result<seq<Node>, FoldError>)
    ensures r.Failure? ==> exists k :: 0 <= k < |steps| && steps[k].status == Pending && Writes(steps[k])
    decreases |steps|
  {
    if |steps| == 0 then Success(files)
    else if steps[0].status != Pending then FoldPending(files, steps[1..])
    else
      match ApplyStep(files, steps[0])
      case Failure(e) => Failure(e)
      case Success(files') => FoldPending(files', steps[1..])
  }

  predicate AnyPending(steps: seq<Step>) {
    exists i :: 0 <= i < |steps| && steps[i].status == Pending
  }

  /**
   * The whole effect (Builder.tsx:47-109). With no pending step nothing changes. With
   * one, the folded tree replaces the old one and every step, whatever its type or
   * status, becomes completed. A walk that throws aborts the effect before either
   * state is set.
   */
  function Pass(s: Snapshot): (r: Result<Snapshot, FoldError>)
    ensures !AnyPending(s.steps) ==> r == Success(s)
    ensures r.Success? <==> FoldPending(s.files, s.steps).Success?
    ensures AnyPending(s.steps) && r.Success? ==>
      && r.value.files == FoldPending(s.files, s.steps).value
      && |r.value.steps| == |s.steps|
      && (forall i :: 0 <= i < |s.steps| ==> r.value.steps[i] == s.steps[i].(status := Completed))
      && !AnyPending(r.value.steps)
  {
    if !AnyPending(s.steps) then
      FoldNothingPending(s.files, s.steps);
      Success(s)
    else
      match FoldPending(s.files, s.steps)
      case Failure(e) => Failure(e)
      case Success(files') =>
        Success(Snapshot(files', seq(|s.steps|, i requires 0 <= i < |s.steps| => s.steps[i].(status := Completed))))
  }

  /** With nothing pending the fold touches nothing. */
  lemma {:induction false} FoldNothingPending(files: seq<Node>, steps: seq<Step>)
    requires !AnyPending(steps)
    ensures FoldPending(files, steps) == Success(files)
    decreases |steps|
  {
    if |steps| > 0 {
      assert steps[0].status != Pending;
      assert !AnyPending(steps[1..]) by {
        forall i | 0 <= i < |steps[1..]| ensures steps[1..][i].status != Pending {
          assert steps[1..][i] == steps[i + 1];
        }
      }
      FoldNothingPending(files, steps[1..]);
    }
  }

  /**
   * Left to right: folding `a + b` is folding `a`, then folding `b` into the tree that
   * produced, and a failure in `a` is the failure of the whole.
   */
  lemma {:induction false} FoldPendingAppend(files: seq<Node>, a: seq<Step>, b: seq<Step>)
    ensures FoldPending(files, a + b) ==
      match FoldPending(files, a)
      case Failure(e) => Failure(e)
      case Success(files') => FoldPending(files', b)
    decreases |a|
  {
    if |a| == 0 {
      assert a + b == b;
    } else {
      assert (a + b)[0] == a[0];
      assert (a + b)[1..] == a[1..] + b;
      if a[0].status != Pending {
        FoldPendingAppend(files, a[1..], b);
      } else if ApplyStep(files, a[0]).Success? {
        FoldPendingAppend(ApplyStep(files, a[0]).value, a[1..], b);
      }
    }
  }

  /** Pending steps that are not path-carrying `CreateFile`s leave the tree as it is. */
  lemma {:induction false} FoldIgnoresInertSteps(files: seq<Node>, steps: seq<Step>)
    requires forall i :: 0 <= i < |steps| && steps[i].status == Pending ==> !Writes(steps[i])
    ensures FoldPending(files, steps) == Success(files)
    decreases |steps|
  {
    if |steps| > 0 {
      assert forall i :: 0 <= i < |steps[1..]| ==> steps[1..][i] == steps[i + 1];
      FoldIgnoresInertSteps(files, steps[1..]);
    }
  }

  /** A second pass over the result of a successful pass changes nothing: no step is pending any more. */
  lemma PassIdempotent(s: Snapshot)
    requires Pass(s).Success?
    ensures Pass(Pass(s).value) == Pass(s)
  {
  }

  /**
   * A `CreateFile` step changes no other path: anything that is neither the step's
   * path nor one of its ancestor folders finds the same node as before.
   */
  lemma CreateFileFrame(files: seq<Node>, step: Step, q: string)
    requires Writes(step) && ApplyStep(files, step).Success?
    requires !(Split(q) <= Split(step.path.value))
    ensures Find(ApplyStep(files, step).value, q) == Find(files, q)
  {
    InsertFrame(files, "", Split(step.path.value), step.code, Split(q));
  }

  /**
   * Upsert, not duplicate: two pending `CreateFile` steps for the same path leave one
   * node there, holding the later code, and the second adds no path to the tree.
   */
  lemma UpsertTwice(files: seq<Node>, path: string, first: Option<string>, second: Option<string>)
    requires FoldPending(files, [Step(CreateFile, Pending, Some(path), first)]).Success?
    ensures FoldPending(files, [Step(CreateFile, Pending, Some(path), first), Step(CreateFile, Pending, Some(path), second)]).Success? &&
            Find(FoldPending(files, [Step(CreateFile, Pending, Some(path), first), Step(CreateFile, Pending, Some(path), second)]).value, path).Some? &&
            Find(FoldPending(files, [Step(CreateFile, Pending, Some(path), first), Step(CreateFile, Pending, Some(path), second)]).value, path).value.content == second &&
            AllPaths(FoldPending(files, [Step(CreateFile, Pending, Some(path), first), Step(CreateFile, Pending, Some(path), second)]).value)
              == AllPaths(FoldPending(files, [Step(CreateFile, Pending, Some(path), first)]).value)
  {
    var s1 := Step(CreateFile, Pending, Some(path), first);
    var s2 := Step(CreateFile, Pending, Some(path), second);
    var once := ApplyStep(files, s1).value;
    assert FoldPending(files, [s1]) == FoldPending(once, []);
    FoldPendingAppend(files, [s1], [s2]);
    assert [s1] + [s2] == [s1, s2];
    UpsertAddsNoPath(once, "", Split(path), second);
    assert FoldPending(once, [s2]) == ApplyStep(once, s2);
  }

  /**
   * The fold keeps the tree well formed after any number of steps, so no two nodes
   * anywhere in the tree share a path: it stores one distinct path per node.
   */
  lemma {:induction false} FoldKeepsWellFormed(files: seq<Node>, steps: seq<Step>)
    requires WellFormed(files, "")
    requires FoldPending(files, steps).Success?
    ensures WellFormed(FoldPending(files, steps).value, "")
    ensures |AllPaths(FoldPending(files, steps).value)| == Size(FoldPending(files, steps).value)
    decreases |steps|
  {
    PathsUnique(files, "");
    if |steps| > 0 {
      if steps[0].status != Pending {
        FoldKeepsWellFormed(files, steps[1..]);
      } else {
        if Writes(steps[0]) {
          InsertKeepsWellFormed(files, "", Split(steps[0].path.value), steps[0].code);
        }
        FoldKeepsWellFormed(ApplyStep(files, steps[0]).value, steps[1..]);
      }
    }
  }
}

=== FILE: wrappers.dfy ===
/** Option and Result, the two failure-carrying wrappers the model needs. */
module Wrappers {

  /** A value that may be absent: TypeScript's optional field (`undefined`). */
  datatype Option<+T> = None | Some(value: T) {

    /** The wrapped value, or `default` when there is none. */
    function GetOr(default: T): T {
      match this
      case Some(v) => v
      case None => default
    }
  }

  /** The outcome of a computation that may throw: either a value or an error. */
  datatype Result<+R, +E> = Success(value: R) | Failure(error: E)
}
